=== FILE: README.md ===
# Online store: product stock and sale lifecycle

A Dafny model of the product and sale routes of a small Flask inventory API.
The two database tables become an immutable store: a map from the
title-cased product name to its product row, and a map from sale id to sale
row, plus the two auto-increment counters. Each route becomes a pure
function from the store to a `Result`. On success the result carries the new
store. On failure it carries the warning or error the route reports. The
sale routes and the product routes are glued into one state machine
(`Lifecycle.Apply`), so the model can state properties that hold over any
sequence of requests.

Files, one module each:

- `outcomes.dfy` (`Outcomes`): `Result`, `Option` and the problem kinds.
  The product routes report their failures as warnings (HTTP 201). The sale
  routes report every failure as an error (HTTP 400).
- `messages.dfy` (`Messages`): the message text of each failure, with the
  decimal text of the numbers it names.
- `text.dfy` (`Text`): ASCII models of `str.strip()`, `str.title()` and
  `str.split("-")`, with their reference characterisations.
- `model.dfy` (`Model`): the `Product` and `Sale` rows, the `Store`, and
  the store invariant `Valid`.
- `products.dfy` (`Products`): `/add_product`, `/update_stock`,
  `/delete_product`, `/get_product`.
- `sales.dfy` (`Sales`): `/add_sale`, `/close_sale`, `/delete_sale`,
  `/get_sales`.
- `ledger.dfy` (`Ledger`): per-product accounting of units in stock plus
  units recorded in sales.
- `lifecycle.dfy` (`Lifecycle`): all routes as one transition function,
  with invariants over it.
- `scenarios.dfy` (`Scenarios`): proved scenarios on small stores. Example:
  selling 3 phones out of 10.

Prices and sale values are integer cents.

The routes check less than one might expect; the model follows the code:

- The Brazilian zip check only tests the length (9 or 10) and that
  splitting on "-" gives two pieces. It never checks for digits.
- The country is not required to be non-empty.
- The sale quantity is not required to be positive. A negative quantity
  passes the stock check and raises the stock.
- Stock is not kept non-negative. `/add_product` and `/update_stock`
  store any integer. `Lifecycle.UpdateStockAcceptsNegative` shows this.
- `/get_product` looks the name up exactly as given, without title-casing.
- Every existence test is `len()` of the stored name cell, so a product
  stored under the empty name reads as absent (`Model.Registered`).
  `/add_product` stores "" once. A second add of "" passes the test and
  breaks the unique name column. Reading, updating, deleting or selling ""
  all fail as "does not exist".
- `/add_product` title-cases the name but does not strip it. `/add_sale`
  strips and then title-cases.
- The status values are the strings "open" and "close". `Model.Status`
  is the two-valued enum for them.

## Model

| member | source | states |
|---|---|---|
| `Text.Strip` | resources/sales.py:33 | `strip()` returns the infix of its input left after dropping whitespace at both ends; everything dropped is whitespace, and the result neither starts nor ends with whitespace |
| `Text.StripKeeps` | resources/sales.py:33 | a string with no whitespace at either end is left as it is by `strip()` |
| `Text.StripIdempotent` | resources/sales.py:33 | stripping an already stripped string changes nothing |
| `Text.Title` | resources/products.py:33 | `title()` keeps the length of the name |
| `Text.TitlePointwise` | resources/products.py:33 | each character of the title-cased string is the upper-case form of the input character, or the lower-case form when the previous input character is a letter |
| `Text.TitleKeeps` | resources/products.py:33 | a string each of whose characters already equals its title-cased form is left as it is by `title()` |
| `Text.TitleIdempotent` | resources/sales.py:69-71 | title-casing twice equals title-casing once, so when the name is not decoded again (see `Sales.RecordSale` under "Left out"), the stock update that `/add_sale` makes re-title-cases it and looks up the same product |
| `Text.Split` | resources/sales.py:44 | `split("-")` yields at least one piece, and no piece contains the separator |
| `Text.SplitCount` | resources/sales.py:44 | `split("-")` yields exactly one more piece than the string has hyphens |
| `Text.SplitJoin` | resources/sales.py:44 | joining the pieces of `split("-")` with "-" gives back the input |
| `Messages.IntText` | resources/sales.py:66 | the f-string text of an integer: at least one character; for a non-negative number only digits, with no leading zero; a leading minus sign for a negative one |
| `Messages.IntTextRoundTrip` | resources/sales.py:66 | reading the text of any integer back as a decimal numeral gives that integer |
| `Messages.IntTextInjective` | resources/sales.py:118 | different integers have different texts |
| `Messages.DetailNamesNumber` | resources/sales.py:64-67 | the stock-shortage detail opens with "There are only " followed by the available count's text; the detail of a missing, already closed or closed sale opens with "The sale " followed by the id's text |
| `Messages.StockDetailNamesCount` | resources/sales.py:64-67 | two stock-shortage details are equal only when they name the same available count |
| `Messages.SaleDetailNamesId` | resources/sales.py:118 | two "does not exist" details are equal only when they name the same sale id |
| `Messages.Message` | resources/products.py:101-105 | the message of a failure ends with its detail and starts with 'W' for a warning and 'E' for an error |
| `Messages.MessageDetermines` | resources/sales.py:96-97 | equal failure messages have the same level and the same detail, so the prefix tells a warning from an error |
| `Sales.ZipShapeByHyphens` | resources/sales.py:43-51 | a zip passes the Brazilian check iff it has 9 or 10 characters and exactly one hyphen; digits are not checked |
| `Products.AddProduct` | resources/products.py:31-63 | fails with the warning "Product already registered" when the existence test finds the title-cased name; a stored empty name escapes the test, and a second insert of it fails with the database's unique-column error; otherwise inserts one new product under that name with the next id and the given price, supplier, category, description and stock, and changes nothing else |
| `Products.UpdateStock` | resources/products.py:75-105 | fails with the warning "The product does not exist" exactly when the existence test does not find the title-cased name (absent, or empty); otherwise overwrites that product's stock with the argument, whatever its sign, reports the old and new stock, and changes no other field or product |
| `Products.DeleteProduct` | resources/products.py:117-147 | fails with "The product does not exist" when the existence test does not find the name (absent, or empty), and fails when any sale (open or closed) carries the name; otherwise removes exactly that product and leaves the sales table untouched |
| `Products.GetProduct` | resources/products.py:159-182 | returns the stored row of the name given, not title-cased, and fails with "The product does not exist" exactly when the existence test does not find it (absent, or empty) |
| `Products.AddThenGet` | resources/products.py:48-59 | reading back a product just added under a non-empty name returns exactly the fields it was added with |
| `Products.AddTwiceRefused` | resources/products.py:41-46 | a second add of a name that title-cases to the same key is refused, so no second record exists: with the warning "Product already registered" for a non-empty name, and with the unique-column error for the empty name, which the `len()` test does not see |
| `Products.EmptyNameHidden` | resources/products.py:81-86 | a product stored under the empty name is not found by `/get_product`, `/update_stock` or `/delete_product`; each answers "The product does not exist" |
| `Products.GetProductFindsOnlyTitles` | resources/products.py:161-169 | in any store reachable by the routes, `/get_product` succeeds only for a name that is its own title, because every stored name is title-cased and the lookup is not |
| `Products.GetProductIsCaseSensitive` | resources/products.py:161-169 | so a product stored as "Iphone 13" is not found under "iphone 13" |
| `Sales.CleanRequest` | resources/sales.py:33-40 | the name `/add_sale` works with after `.strip().title()` is a fixed point of `title()` |
| `Sales.CheckedSale` | resources/sales.py:43-93 | on an already cleaned request: the zip check, then product existence (the `len()` test, so an empty name is absent), then `quantity <= stock`, each failing with its own error; when all pass, the stock debit and the open sale under the next id |
| `Sales.RecordSale` | resources/sales.py:69-93 | once the checks have passed and with the name taken as already decoded, the stock update through the product route finds the product, so the sale is recorded with value `price * quantity` and the stock lowered by the quantity |
| `Sales.AddSale` | resources/sales.py:31-97 | checks, in order, the Brazilian zip shape, product existence (an empty name counts as absent) and `quantity <= stock`, and fails with the matching error; on success the product's stock becomes `stock - quantity`, other products are unchanged, and exactly one sale is added under the next id, open, with the cleaned name and address, the quantity and value `price * quantity` |
| `Sales.CloseSale` | resources/sales.py:108-136 | fails for an unknown id and for a sale already closed; otherwise sets only that sale's status to closed |
| `Sales.DeleteSale` | resources/sales.py:194-222 | fails for an unknown id and for a closed sale; otherwise removes exactly that sale and leaves every product, and so every stock, unchanged |
| `Sales.ProductOf` | resources/sales.py:171-177 | the product join of `/get_sales`, as the code intends it: a row is joined exactly when `/get_product` on the sale name succeeds, and it is that row |
| `Sales.GetSales` | resources/sales.py:147-183 | fails with "There are no open sales" exactly when no sale is open; otherwise lists every open sale once, with nothing else (the model lists them in id order, a choice of the model: the query fixes no order), each joined with its product's current row when one exists |
| `Ledger.DebitAndAppendLedger` | resources/sales.py:69-93 | any step that lowers one product's stock by a quantity and appends a sale of that quantity under the next id keeps stock plus units sold for that product, and changes nothing for any other |
| `Ledger.AddSaleLedger` | resources/sales.py:64-93 | a sale debits exactly the units it records: for its product, stock plus units sold stays the same; other products keep their stock and units sold |
| `Ledger.CloseSaleLedger` | resources/sales.py:127-132 | closing a sale changes no product's units sold |
| `Ledger.DeleteSaleLedger` | resources/sales.py:215-218 | deleting an open sale leaves all stock unchanged, so its product's stock plus units sold drops by the sale's quantity; the stock is not given back |
| `Model.StatusText` | resources/sales.py:124-131 | the two statuses are stored as different lower-case words, and reading a stored word back gives the status it came from |
| `Model.ParseStatus` | resources/sales.py:151-154 | only the words "open" and "close" read back as a status |
| `Model.NewSale` | database/model/sales.py:14-47 | a newly built sale row is open, by the column default, and carries exactly the id, name, quantity, value and address it was built with |
| `Model.EmptyValid` | database/model/product.py:13-14 | a fresh database satisfies the store invariant |
| `Lifecycle.AddProductKeepsValid` | resources/products.py:41-57 | adding a product keeps names unique and title-cased and product ids distinct |
| `Lifecycle.UpdateStockKeepsValid` | resources/products.py:95-99 | a stock update keeps the store invariant |
| `Lifecycle.DeleteProductKeepsValid` | resources/products.py:138-141 | deleting a product keeps the store invariant |
| `Lifecycle.AddSaleKeepsValid` | database/model/sales.py:14 | recording a sale keeps every sale under its own id, below the counter |
| `Lifecycle.CloseSaleKeepsValid` | resources/sales.py:127-132 | closing a sale keeps the store invariant |
| `Lifecycle.DeleteSaleKeepsValid` | resources/sales.py:215-218 | deleting a sale keeps the store invariant |
| `Lifecycle.ApplyKeepsValid` | database/model/product.py:13-14 | every route keeps product names unique and product and sale ids distinct |
| `Lifecycle.RunKeepsValid` | database/model/sales.py:14 | the invariant holds after any sequence of requests |
| `Lifecycle.AddSaleFreshId` | database/model/sales.py:14 | a new sale's id belongs to no existing sale, so the table grows by exactly one row |
| `Lifecycle.NewSalesAreOpen` | database/model/sales.py:18 | every sale a request creates is open; none is created closed |
| `Lifecycle.ProductRoutesKeepSales` | resources/products.py:31-182 | the product routes and the read-only routes leave the sales table exactly as it was |
| `Lifecycle.RecordedKeepsSales` | database/model/sales.py:14 | a sale recorded under the next auto-increment id leaves every existing sale in place and unchanged |
| `Lifecycle.AddSaleKeepsSales` | resources/sales.py:79-93 | a new sale is inserted under a fresh id, so every existing sale keeps its row unchanged |
| `Lifecycle.ClosedSaleFrozen` | resources/sales.py:117-132 | no route reopens, edits or deletes a closed sale |
| `Lifecycle.ClosedSaleFrozenRun` | resources/sales.py:203-213 | a closed sale stays exactly as it is over any sequence of requests |
| `Lifecycle.SoldProductKept` | resources/products.py:129-136 | a product named by any sale, open or closed, survives every request |
| `Lifecycle.CloseTwice` | resources/sales.py:124-125 | closing a sale twice succeeds once, then fails with "already closed", and the sale stays closed |
| `Lifecycle.DeleteSaleLeavesOpenSales` | resources/sales.py:215-218 | after deleting an open sale, the open sales are the earlier ones minus that one |
| `Lifecycle.AddSaleStockNonNegative` | resources/sales.py:64-71 | a recorded sale leaves its product's stock non-negative, whatever the stock was before |
| `Lifecycle.ApplyKeepsStockNonNegative` | resources/products.py:88-99 | non-negative stock is kept by every request whose stock arguments are non-negative |
| `Lifecycle.UpdateStockAcceptsNegative` | resources/products.py:95-99 | a stock update of any product the existence test finds, to any negative number, is accepted and leaves a store with a negative stock |
| `Scenarios.IphoneIsClean` | resources/sales.py:33 | the name "Iphone 13" survives `.strip().title()` unchanged |
| `Scenarios.BrazilIsClean` | resources/sales.py:36 | the country "Brazil" survives `.strip().title()` unchanged, so the Brazilian zip check applies to it |
| `Scenarios.ZipFromParts` | resources/sales.py:43-51 | two hyphen-free parts joined by one hyphen, 9 or 10 characters in all, pass the Brazilian zip check |
| `Scenarios.SampleAddressAccepted` | resources/sales.py:43-51 | the address with zip "01025-020" in "Brazil" passes the zip check |
| `Scenarios.SellThreePhones` | resources/sales.py:69-79 | adding 10 phones at 8300.00 under a clean name to a fresh database and selling 3 to a Brazilian address with an accepted zip records an open sale worth 24900.00 and leaves 7 in stock (the name must not be empty, since the existence test does not see an empty name); for the literal name "Iphone 13" and the sample address, `Scenarios.IphoneIsClean` and `Scenarios.SampleAddressAccepted` discharge its requires |
| `Scenarios.BlankNameRefused` | resources/sales.py:53-58 | a name that strips to nothing passes an accepted zip check and is then refused with "The product does not exist", whatever the store holds, even a product stored under "" |
| `Scenarios.ZipWithoutHyphenRefused` | resources/sales.py:43-51 | a Brazilian zip code without a hyphen is refused with the zip-code error, whatever its length and whatever the store holds |

## Left out

- HTTP routing, the OpenAPI schemas, status codes and the response dictionaries apart from their message text (`Messages.Message`). Outcomes are `Result` values whose level tells a warning (201) from an error (400).
- URL decoding (`unquote(unquote(...))`): the requests are taken as already decoded.
- `Sales.RecordSale`: does not model the second double decoding that `/update_stock` applies (resources/products.py:77) when `/add_sale` calls it with an already decoded name. Decoding is not idempotent: a form name "Ab%252541" is stored as "Ab%41", and the stock update then looks up "Aba". The source then fails with "Error updating stock" or overwrites the stock of "Aba". The model always debits "Ab%41" and records the sale.
- The `available_stock` column: the `Product` class (database/model/product.py:13-32) declares no such column, and its constructor takes no such argument. The routes still pass it (resources/products.py:48-55) and read it (resources/products.py:89, resources/sales.py:61), and `format_product_response` reads it too (schemas/products.py:70), called by `/get_product` (resources/products.py:176). As the text stands, those calls raise, so `/add_product` of a new name, `/update_stock` of an existing name and `/add_sale` past its existence check and `/get_product` of an existing name would end in "Error: ..." with 400. The model assumes the column exists, as the routes do.
- Unicode in `strip()` and `title()`: only ASCII whitespace and ASCII letters are modelled. A non-ASCII letter counts as uncased, so `title()` on it differs from Python's.
- Floating-point prices and values, and `round(..., 2)`: prices are integer cents and the value of a sale is exactly `price * quantity` cents.
- `sale_date` (a datetime default): it has no bearing on the routes' logic.
- The database layer (`select_value_table_parameter`, `insert_data_table`, `update_data_table`, `delete_data_table`) is not part of this model. It is a map lookup or update. The existence test reads its result as the stored name cell, as the routes' `len()` and arithmetic on the same call's results imply (resources/sales.py:58, 64, 69). A row that is absent is taken to read as an empty value. The one database exception modelled is the unique-column refusal of a second empty name. Its text (`DuplicateName`) is SQLite's wording and stands for whatever the engine says. Other exceptions of the database ("Error: ..." with 400) are not modelled.
- `Sales.ProductOf`: the loopback HTTP request of `/get_sales` is modelled as an in-process lookup of the product name. As written, the request goes to `/get_product/?name=<name>` (resources/sales.py:171-173), but the route is `/get_product/<string:name>` (resources/products.py:151). The empty path segment does not match that route, so the request never reaches `/get_product` and no product row is ever joined. The model keeps the join the code evidently intends.
- `Sales.GetSales`: the order of the listed sales is the model's choice (id order); the query (resources/sales.py:152) fixes none.
- Concurrency and transactions. Requests are served one at a time, and the stock debit and the sale insert of `/add_sale` are not claimed atomic beyond that.
- The declared column widths. Products (database/model/product.py:14-18): name 30, supplier 100, category 20, description 500. Sales (database/model/sales.py:15-25): name 30, sale_status 10, sale_date 10, zip_code 15, country 50, city 50, state 50, street 50, neighborhood 20. No route checks them, and whether the database rejects or truncates longer values depends on the engine.
- Auto-increment ids are modelled as counters starting at 1 that never reuse an id. The engine's exact reuse policy after deletions is not modelled.

=== FILE: ledger.dfy ===
/** Stock accounting per product name: the units still in stock plus the
    units recorded in sales under that name.  Recording or closing a sale
    keeps the total; deleting an open sale lowers it by the sale's quantity,
    because `/delete_sale` never gives the stock back. */
module Ledger {
  import opened Model
  import opened Sales

  /** Units the sale under id `k` records for `name` (0 if none). */
  function UnitsAt(sales: map<int, Sale>, name: string, k: int): int
  {
    if k in sales && sales[k].name == name then sales[k].quantity else 0
  }

  /** Units recorded for `name` by the sales with ids in [0, n). */
  function SoldBelow(sales: map<int, Sale>, name: string, n: nat): int
  {
    if n == 0 then 0 else SoldBelow(sales, name, n - 1) + UnitsAt(sales, name, n - 1)
  }

  /** Units recorded for `name` by all sales of a valid store. */
  function SoldUnits(st: Store, name: string): int
  {
    SoldBelow(st.sales, name, st.nextSaleId)
  }

  /** Two sale tables that record the same units for `name` below `n` have the
      same total below `n`. */
  lemma {:induction false} SoldBelowAgree(a: map<int, Sale>, b: map<int, Sale>, name: string, n: nat)
    requires forall k :: 0 <= k < n ==> UnitsAt(a, name, k) == UnitsAt(b, name, k)
    ensures SoldBelow(a, name, n) == SoldBelow(b, name, n)
  {
    if n > 0 {
      SoldBelowAgree(a, b, name, n - 1);
    }
  }

  /** Removing the sale under id `k < n` takes exactly its units off the
      total below `n`. */
  lemma {:induction false} SoldBelowRemove(sales: map<int, Sale>, name: string, n: nat, k: nat)
    requires k < n
    ensures SoldBelow(sales - {k}, name, n) == SoldBelow(sales, name, n) - UnitsAt(sales, name, k)
  {
    if k == n - 1 {
      SoldBelowAgree(sales - {k}, sales, name, n - 1);
    } else {
      SoldBelowRemove(sales, name, n - 1, k);
    }
  }

  /** Writing a sale under an id at or above `n` leaves the total below `n`
      alone. */
  lemma {:induction false} SoldBelowInsert(sales: map<int, Sale>, k: int, s: Sale, name: string, n: nat)
    requires n <= k
    ensures SoldBelow(sales[k := s], name, n) == SoldBelow(sales, name, n)
  {
    if n > 0 {
      SoldBelowInsert(sales, k, s, name, n - 1);
    }
  }

  /** Appending a sale under the next id adds its units to its own name's
      total and to no other. */
  lemma AppendSaleUnits(sales: map<int, Sale>, top: nat, s: Sale, name: string)
    ensures SoldBelow(sales[top := s], name, top + 1)
            == SoldBelow(sales, name, top) + (if s.name == name then s.quantity else 0)
  {
    SoldBelowInsert(sales, top, s, name, top);
  }

  /** The ledger step of a sale, for any pair of stores related the way
      `/add_sale` relates them. */
  lemma DebitAndAppendLedger(st: Store, st': Store, s: Sale)
    requires s.name in st.products
    requires st'.products == st.products[s.name := st.products[s.name].(
               availableStock := st.products[s.name].availableStock - s.quantity)]
    requires st'.sales == st.sales[st.nextSaleId := s]
    requires st'.nextSaleId == st.nextSaleId + 1
    ensures st'.products[s.name].availableStock + SoldUnits(st', s.name)
            == st.products[s.name].availableStock + SoldUnits(st, s.name)
    ensures SoldUnits(st', s.name) == SoldUnits(st, s.name) + s.quantity
    ensures forall n :: n in st.products && n != s.name ==>
              && st'.products[n].availableStock == st.products[n].availableStock
              && SoldUnits(st', n) == SoldUnits(st, n)
  {
    forall n
      ensures SoldUnits(st', n) == SoldUnits(st, n) + (if s.name == n then s.quantity else 0)
    {
      AppendSaleUnits(st.sales, st.nextSaleId, s, n);
    }
  }

  /** A sale debits exactly the units it records: for the sold product,
      stock plus units sold is unchanged; every other product keeps both its
      stock and its units sold. */
  lemma AddSaleLedger(st: Store, req: SaleRequest)
    requires AddSale(st, req).Ok?
    ensures var (st', s) := AddSale(st, req).value;
      && st'.products[s.name].availableStock + SoldUnits(st', s.name)
         == st.products[s.name].availableStock + SoldUnits(st, s.name)
      && SoldUnits(st', s.name) == SoldUnits(st, s.name) + s.quantity
      && forall n :: n in st.products && n != s.name ==>
           && st'.products[n].availableStock == st.products[n].availableStock
           && SoldUnits(st', n) == SoldUnits(st, n)
  {
    var c := CleanRequest(req);
    assert AddSale(st, req) == CheckedSale(st, c);
    var (st', s) := CheckedSale(st, c).value;
    DebitAndAppendLedger(st, st', s);
  }

  /** Closing a sale changes no product's units sold. */
  lemma CloseSaleLedger(st: Store, id: int, name: string)
    requires CloseSale(st, id).Ok?
    ensures SoldUnits(CloseSale(st, id).value, name) == SoldUnits(st, name)
  {
    SoldBelowAgree(CloseSale(st, id).value.sales, st.sales, name, st.nextSaleId);
  }

  /** Deleting an open sale leaves every stock as it was, so the total for
      its product drops by the sale's quantity: the units are lost, not
      returned to stock. */
  lemma DeleteSaleLedger(st: Store, id: int)
    requires Valid(st)
    requires DeleteSale(st, id).Ok?
    ensures var st' := DeleteSale(st, id).value;
            var s := st.sales[id];
      && st'.products == st.products
      && SoldUnits(st', s.name) == SoldUnits(st, s.name) - s.quantity
      && forall n :: n != s.name ==> SoldUnits(st', n) == SoldUnits(st, n)
  {
    var s := st.sales[id];
    forall n: string
      ensures SoldUnits(DeleteSale(st, id).value, n)
              == SoldUnits(st, n) - (if n == s.name then s.quantity else 0)
    {
      SoldBelowRemove(st.sales, n, st.nextSaleId, id);
    }
  }
}

=== FILE: lifecycle.dfy ===
/** The routes as one state machine over the store: any request either
    fails and leaves the store as it was, or succeeds and yields the new
    store.  The lemmas here hold across every route. */
module Lifecycle {
  import opened Text
  import opened Outcomes
  import opened Model
  import opened Products
  import opened Sales

  /** One request to the API. */
  datatype Op =
    | AddProductOp(product: ProductRequest)
    | UpdateStockOp(name: string, newStock: int)
    | DeleteProductOp(name: string)
    | GetProductOp(name: string)
    | AddSaleOp(sale: SaleRequest)
    | CloseSaleOp(id: int)
    | DeleteSaleOp(id: int)
    | GetSalesOp

  /** The store after serving `op`; a failed or read-only request leaves it
      unchanged. */
  function Apply(st: Store, op: Op): Store
  {
    match op
    case AddProductOp(req) =>
      var r := AddProduct(st, req); if r.Ok? then r.value.0 else st
    case UpdateStockOp(name, n) =>
      var r := UpdateStock(st, name, n); if r.Ok? then r.value.0 else st
    case DeleteProductOp(name) =>
      var r := DeleteProduct(st, name); if r.Ok? then r.value.0 else st
    case GetProductOp(_) => st
    case AddSaleOp(req) =>
      var r := AddSale(st, req); if r.Ok? then r.value.0 else st
    case CloseSaleOp(id) =>
      var r := CloseSale(st, id); if r.Ok? then r.value else st
    case DeleteSaleOp(id) =>
      var r := DeleteSale(st, id); if r.Ok? then r.value else st
    case GetSalesOp => st
  }

  /** The store after serving `ops` one after the other. */
  function Run(st: Store, ops: seq<Op>): Store
    decreases |ops|
  {
    if ops == [] then st else Run(Apply(st, ops[0]), ops[1..])
  }

  // ------------------------------------------------------ store invariant

  lemma AddProductKeepsValid(st: Store, req: ProductRequest)
    requires Valid(st)
    requires AddProduct(st, req).Ok?
    ensures Valid(AddProduct(st, req).value.0)
  {
    var (st', p) := AddProduct(st, req).value;
    TitleIdempotent(req.name);
    forall n | n in st'.products
      ensures st'.products[n].name == n && Title(n) == n
      ensures 1 <= st'.products[n].id < st'.nextProductId
    {
      if n != p.name {
        assert n in st.products;
      }
    }
    forall n, m | n in st'.products && m in st'.products && n != m
      ensures st'.products[n].id != st'.products[m].id
    {
      if n != p.name && m != p.name {
        assert n in st.products && m in st.products;
      } else if n == p.name {
        assert m in st.products;
      } else {
        assert n in st.products;
      }
    }
    assert ProductsValid(st'.products, st'.nextProductId);
  }

  /** Changing only stocks keeps the product table valid. */
  lemma StockChangeKeepsProductsValid(before: map<string, Product>, after: map<string, Product>, nextId: nat)
    requires ProductsValid(before, nextId)
    requires after.Keys == before.Keys
    requires forall n :: n in after ==> after[n].name == before[n].name && after[n].id == before[n].id
    ensures ProductsValid(after, nextId)
  {
  }

  lemma UpdateStockKeepsValid(st: Store, name: string, n: int)
    requires Valid(st)
    requires UpdateStock(st, name, n).Ok?
    ensures Valid(UpdateStock(st, name, n).value.0)
  {
    var st' := UpdateStock(st, name, n).value.0;
    StockChangeKeepsProductsValid(st.products, st'.products, st.nextProductId);
  }

  lemma DeleteProductKeepsValid(st: Store, name: string)
    requires Valid(st)
    requires DeleteProduct(st, name).Ok?
    ensures Valid(DeleteProduct(st, name).value.0)
  {
  }

  lemma AddSaleKeepsValid(st: Store, req: SaleRequest)
    requires Valid(st)
    ensures AddSale(st, req).Ok? ==> Valid(AddSale(st, req).value.0)
  {
    if AddSale(st, req).Ok? {
      var (st', s) := AddSale(st, req).value;
      StockChangeKeepsProductsValid(st.products, st'.products, st.nextProductId);
      forall id | id in st'.sales
        ensures st'.sales[id].id == id && 1 <= id < st'.nextSaleId
      {
        if id != s.id {
          assert id in st.sales;
        }
      }
    }
  }

  lemma CloseSaleKeepsValid(st: Store, id: int)
    requires Valid(st)
    requires CloseSale(st, id).Ok?
    ensures Valid(CloseSale(st, id).value)
  {
  }

  lemma DeleteSaleKeepsValid(st: Store, id: int)
    requires Valid(st)
    requires DeleteSale(st, id).Ok?
    ensures Valid(DeleteSale(st, id).value)
  {
  }

  /** Every route keeps the store valid: unique title-cased product names,
      distinct product ids, every sale under its own fresh id. */
  lemma ApplyKeepsValid(st: Store, op: Op)
    requires Valid(st)
    ensures Valid(Apply(st, op))
  {
    match op
    case AddProductOp(req) =>
      if AddProduct(st, req).Ok? { AddProductKeepsValid(st, req); }
    case UpdateStockOp(name, n) =>
      if UpdateStock(st, name, n).Ok? { UpdateStockKeepsValid(st, name, n); }
    case DeleteProductOp(name) =>
      if DeleteProduct(st, name).Ok? { DeleteProductKeepsValid(st, name); }
    case GetProductOp(_) =>
    case AddSaleOp(req) =>
      if AddSale(st, req).Ok? { AddSaleKeepsValid(st, req); }
    case CloseSaleOp(id) =>
      if CloseSale(st, id).Ok? { CloseSaleKeepsValid(st, id); }
    case DeleteSaleOp(id) =>
      if DeleteSale(st, id).Ok? { DeleteSaleKeepsValid(st, id); }
    case GetSalesOp =>
  }

  /** Every store reachable from a fresh database is valid. */
  lemma {:induction false} RunKeepsValid(st: Store, ops: seq<Op>)
    requires Valid(st)
    ensures Valid(Run(st, ops))
    decreases |ops|
  {
    if ops != [] {
      ApplyKeepsValid(st, ops[0]);
      RunKeepsValid(Apply(st, ops[0]), ops[1..]);
    }
  }

  /** A recorded sale gets an id no existing sale has, so it overwrites
      nothing: the table grows by exactly one row. */
  lemma AddSaleFreshId(st: Store, req: SaleRequest)
    requires Valid(st)
    ensures AddSale(st, req).Ok? ==>
      var (st', s) := AddSale(st, req).value;
      s.id !in st.sales && |st'.sales| == |st.sales| + 1
  {
  }

  // ------------------------------------------------------ sale lifecycle

  /** New sales are always open: no route creates a closed sale. */
  lemma NewSalesAreOpen(st: Store, op: Op)
    ensures var st' := Apply(st, op);
      forall id :: id in st'.sales && id !in st.sales ==> st'.sales[id].status == Open
  {
  }

  /** The product routes and the read-only routes never touch the sales
      table. */
  lemma ProductRoutesKeepSales(st: Store, op: Op)
    requires !op.AddSaleOp? && !op.CloseSaleOp? && !op.DeleteSaleOp?
    ensures Apply(st, op).sales == st.sales
  {
    match op
    case AddProductOp(req) =>
    case UpdateStockOp(name, n) =>
    case DeleteProductOp(name) =>
    case GetProductOp(_) =>
    case GetSalesOp =>
  }

  /** Recording a sale under the next id overwrites no existing sale. */
  lemma RecordedKeepsSales(st: Store, name: string, quantity: int, addr: Address,
                           st': Store, s: Sale, id: int)
    requires SalesValid(st.sales, st.nextSaleId)
    requires name in st.products
    requires SaleRecorded(st, name, quantity, addr, st', s)
    requires id in st.sales
    ensures id in st'.sales && st'.sales[id] == st.sales[id]
  {
  }

  /** A recorded sale leaves every existing sale as it was. */
  lemma AddSaleKeepsSales(st: Store, req: SaleRequest, id: int)
    requires SalesValid(st.sales, st.nextSaleId)
    requires id in st.sales
    ensures id in Apply(st, AddSaleOp(req)).sales
    ensures Apply(st, AddSaleOp(req)).sales[id] == st.sales[id]
  {
    var r := AddSale(st, req);
    if r.Ok? {
      var c := CleanRequest(req);
      RecordedKeepsSales(st, c.name, c.quantity, c.address, r.value.0, r.value.1, id);
    }
  }

  /** A closed sale is frozen: no route reopens, edits or deletes it. */
  lemma ClosedSaleFrozen(st: Store, op: Op, id: int)
    requires Valid(st)
    requires id in st.sales && st.sales[id].status == Close
    ensures id in Apply(st, op).sales
    ensures Apply(st, op).sales[id] == st.sales[id]
  {
    match op
    case AddSaleOp(req) => AddSaleKeepsSales(st, req, id);
    case CloseSaleOp(k) =>
    case DeleteSaleOp(k) =>
    case _ => ProductRoutesKeepSales(st, op);
  }

  /** ... and stays frozen over any sequence of requests. */
  lemma {:induction false} ClosedSaleFrozenRun(st: Store, ops: seq<Op>, id: int)
    requires Valid(st)
    requires id in st.sales && st.sales[id].status == Close
    ensures id in Run(st, ops).sales
    ensures Run(st, ops).sales[id] == st.sales[id]
    decreases |ops|
  {
    if ops != [] {
      ClosedSaleFrozen(st, ops[0], id);
      ApplyKeepsValid(st, ops[0]);
      ClosedSaleFrozenRun(Apply(st, ops[0]), ops[1..], id);
    }
  }

  /** A product named by any sale, open or closed, can never be deleted. */
  lemma SoldProductKept(st: Store, op: Op, id: int)
    requires Valid(st)
    requires id in st.sales
    requires st.sales[id].name in st.products
    ensures st.sales[id].name in Apply(st, op).products
  {
  }

  /** Closing a sale twice: the first succeeds, the second is refused and
      the sale stays closed. */
  lemma CloseTwice(st: Store, id: int)
    requires CloseSale(st, id).Ok?
    ensures var st' := CloseSale(st, id).value;
      && st'.sales[id].status == Close
      && CloseSale(st', id) == Fail(Error, SaleAlreadyClosed(id))
  {
  }

  /** A deleted open sale is no longer among the open sales, and the other
      open sales are. */
  lemma DeleteSaleLeavesOpenSales(st: Store, id: int)
    requires DeleteSale(st, id).Ok?
    ensures OpenIds(DeleteSale(st, id).value) == OpenIds(st) - {id}
  {
  }

  // ------------------------------------------------------ stock

  /** No product has negative stock. */
  predicate StockNonNegative(st: Store)
  {
    forall n :: n in st.products ==> st.products[n].availableStock >= 0
  }

  /** The routes that take a stock figure from the client do not check its
      sign; every other route keeps stock non-negative by itself. */
  predicate StockArgumentsNonNegative(op: Op)
  {
    match op
    case AddProductOp(req) => req.availableStock >= 0
    case UpdateStockOp(_, n) => n >= 0
    case _ => true
  }

  /** A sale leaves the debited stock non-negative whatever it was before,
      since it is refused when it asks for more than is in stock. */
  lemma AddSaleStockNonNegative(st: Store, req: SaleRequest)
    requires AddSale(st, req).Ok?
    ensures var (st', s) := AddSale(st, req).value;
      st'.products[s.name].availableStock >= 0
  {
  }

  lemma AddProductKeepsStockNonNegative(st: Store, req: ProductRequest)
    requires StockNonNegative(st)
    requires req.availableStock >= 0
    requires AddProduct(st, req).Ok?
    ensures StockNonNegative(AddProduct(st, req).value.0)
  {
    var (st', p) := AddProduct(st, req).value;
    forall n | n in st'.products
      ensures st'.products[n].availableStock >= 0
    {
      if n != p.name {
        assert n in st.products;
      }
    }
  }

  lemma AddSaleKeepsStockNonNegative(st: Store, req: SaleRequest)
    requires StockNonNegative(st)
    requires AddSale(st, req).Ok?
    ensures StockNonNegative(AddSale(st, req).value.0)
  {
    var (st', s) := AddSale(st, req).value;
    AddSaleStockNonNegative(st, req);
    forall n | n in st'.products
      ensures st'.products[n].availableStock >= 0
    {
      if n != s.name {
        assert st'.products[n] == st.products[n];
      }
    }
  }

  /** Non-negative stock is kept by every request whose stock arguments are
      non-negative. */
  lemma ApplyKeepsStockNonNegative(st: Store, op: Op)
    requires StockNonNegative(st)
    requires StockArgumentsNonNegative(op)
    ensures StockNonNegative(Apply(st, op))
  {
    match op
    case AddProductOp(req) =>
      if AddProduct(st, req).Ok? { AddProductKeepsStockNonNegative(st, req); }
    case AddSaleOp(req) =>
      if AddSale(st, req).Ok? { AddSaleKeepsStockNonNegative(st, req); }
    case UpdateStockOp(name, n) =>
      if UpdateStock(st, name, n).Ok? {
        var st' := UpdateStock(st, name, n).value.0;
        assert forall k :: k in st'.products ==> st'.products[k].availableStock >= 0;
      }
    case DeleteProductOp(name) =>
      if DeleteProduct(st, name).Ok? {
        var st' := DeleteProduct(st, name).value.0;
        assert forall k :: k in st'.products ==> st'.products[k].availableStock >= 0;
      }
    case GetProductOp(_) =>
    case CloseSaleOp(id) =>
    case DeleteSaleOp(id) =>
    case GetSalesOp =>
  }

  /** `/update_stock` accepts a negative figure for any product its
      existence test finds: stock can go below zero. */
  lemma UpdateStockAcceptsNegative(st: Store, name: string, n: int)
    requires Registered(st, Title(name))
    requires n < 0
    ensures !StockNonNegative(Apply(st, UpdateStockOp(name, n)))
  {
    var st' := UpdateStock(st, name, n).value.0;
    assert st'.products[Title(name)].availableStock == n;
  }
}

=== FILE: messages.dfy ===
/** The text of the `message` field a failed route returns: "Warning: " or
    "Error: " followed by the text of the exception the route raised. */
module Messages {
  import opened Outcomes

  /** Decimal rendering of an integer, as an f-string prints it: a minus
      sign for negatives, then the digits without leading zeros. */
  function IntText(n: int): (t: string)
    ensures |t| >= 1
    ensures n >= 0 ==> forall i :: 0 <= i < |t| ==> '0' <= t[i] <= '9'
    ensures n >= 0 && |t| > 1 ==> t[0] != '0'
    ensures n < 0 ==> t[0] == '-'
    decreases if n < 0 then 1 - n else n
  {
    if n < 0 then "-" + IntText(-n)
    else if n < 10 then [(48 + n) as char]
    else IntText(n / 10) + [(48 + n % 10) as char]
  }

  /** The value of a string of decimal digits (reading it back). */
  function DigitsValue(t: string): int
  {
    if t == [] then 0 else DigitsValue(t[..|t| - 1]) * 10 + (t[|t| - 1] as int - 48)
  }

  /** The value of an optionally signed decimal numeral. */
  function IntValue(t: string): int
  {
    if |t| > 0 && t[0] == '-' then -DigitsValue(t[1..]) else DigitsValue(t)
  }

  lemma {:induction false} DigitsRoundTrip(n: nat)
    ensures DigitsValue(IntText(n)) == n
  {
    if n >= 10 {
      DigitsRoundTrip(n / 10);
      var t := IntText(n);
      assert t[..|t| - 1] == IntText(n / 10);
    }
  }

  /** Reading back the text of any integer gives that integer, so the
      number a message names can be recovered from it. */
  lemma IntTextRoundTrip(n: int)
    ensures IntValue(IntText(n)) == n
  {
    if n < 0 {
      DigitsRoundTrip(-n);
      assert IntText(n)[1..] == IntText(-n);
    } else {
      DigitsRoundTrip(n);
    }
  }

  /** Different integers have different texts. */
  lemma IntTextInjective(a: int, b: int)
    requires IntText(a) == IntText(b)
    ensures a == b
  {
    IntTextRoundTrip(a);
    IntTextRoundTrip(b);
  }

  /** `d` opens with `head` followed by the text of `n`, and goes on after
      them. */
  predicate NamesNumber(d: string, head: string, n: int)
  {
    var k := IntText(n);
    |d| > |head| + |k| && d[..|head|] == head && d[|head|..|head| + |k|] == k
  }

  /** Fixed opening words, a number's text, fixed closing words. */
  function Numbered(head: string, n: int, tail: string): (d: string)
    ensures var k := IntText(n);
      && |d| == |head| + |k| + |tail|
      && d[..|head|] == head
      && d[|head|..|head| + |k|] == k
      && d[|head| + |k|..] == tail
    ensures tail != [] ==> NamesNumber(d, head, n)
  {
    head + IntText(n) + tail
  }

  /** The text after "Warning: " or "Error: " in the response envelope: the
      text of the exception the route raised. */
  function Detail(p: Problem): (d: string)
  {
    match p
    case AlreadyRegistered => "Product already registered"
    case DuplicateName => "UNIQUE constraint failed: product.name"
    case ProductMissing => "The product does not exist"
    case AlreadySold(name) => name + " has already been sold, it's not possible to delete it"
    case BadZipCode => "Incorrect zip code, expected format: nnnnn-nnn or nnnnn-nnnn"
    case InsufficientStock(n) => Numbered("There are only ", n, " unit(s) available in stock")
    case StockUpdateFailed => "Error updating stock"
    case SaleMissing(id) => Numbered("The sale ", id, " does not exist")
    case SaleAlreadyClosed(id) => Numbered("The sale ", id, " is already closed")
    case SaleClosed(id) => Numbered("The sale ", id, " is closed, it is not possible to delete")
    case NoOpenSales => "There are no open sales"
  }

  /** With the same opening and closing words, equal texts name equal
      numbers. */
  lemma NumberedInjective(head: string, a: int, b: int, tail: string)
    requires Numbered(head, a, tail) == Numbered(head, b, tail)
    ensures a == b
  {
    var d := Numbered(head, a, tail);
    assert |IntText(a)| == |IntText(b)|;
    assert IntText(a) == d[|head|..|head| + |IntText(a)|] == IntText(b);
    IntTextInjective(a, b);
  }

  /** A message about a stock count or a sale id carries that number's text
      right after its fixed opening words. */
  lemma DetailNamesNumber(p: Problem)
    ensures p.InsufficientStock? ==> NamesNumber(Detail(p), "There are only ", p.available)
    ensures p.SaleMissing? || p.SaleAlreadyClosed? || p.SaleClosed? ==>
      NamesNumber(Detail(p), "The sale ", p.saleId)
  {
    match p
    case InsufficientStock(n) =>
    case SaleMissing(id) =>
    case SaleAlreadyClosed(id) =>
    case SaleClosed(id) =>
    case _ =>
  }

  /** Two stock-shortage messages are equal only when they name the same
      count. */
  lemma StockDetailNamesCount(a: int, b: int)
    requires Detail(InsufficientStock(a)) == Detail(InsufficientStock(b))
    ensures a == b
  {
    NumberedInjective("There are only ", a, b, " unit(s) available in stock");
  }

  /** Two "does not exist" messages are equal only when they name the same
      sale id. */
  lemma SaleDetailNamesId(a: int, b: int)
    requires Detail(SaleMissing(a)) == Detail(SaleMissing(b))
    ensures a == b
  {
    NumberedInjective("The sale ", a, b, " does not exist");
  }

  /** The `message` field of a failed response: the level's prefix, then
      the detail. */
  function Message(level: Level, p: Problem): (m: string)
    ensures |m| > |Detail(p)| && m[|m| - |Detail(p)|..] == Detail(p)
    ensures m[0] == (if level == Warning then 'W' else 'E')
  {
    LevelPrefix(level) + Detail(p)
  }

  function LevelPrefix(level: Level): string
  {
    if level == Warning then "Warning: " else "Error: "
  }

  /** A failure message tells its level and its detail apart: equal
      messages have equal levels and equal details. */
  lemma MessageDetermines(l1: Level, p1: Problem, l2: Level, p2: Problem)
    requires Message(l1, p1) == Message(l2, p2)
    ensures l1 == l2 && Detail(p1) == Detail(p2)
  {
    var m := Message(l1, p1);
    assert m[0] == Message(l2, p2)[0];
    var pre := LevelPrefix(l1);
    assert m == pre + Detail(p1) == pre + Detail(p2);
    assert Detail(p1) == m[|pre|..] == Detail(p2);
  }
}

=== FILE: model.dfy ===
/** The two tables of the store: products keyed by their (title-cased,
    unique) name and sales keyed by their auto-increment id. */
module Model {
  import opened Text
  import opened Outcomes

  /** `sale_status`: the column holds "open" or "close". */
  datatype Status = Open | Close

  /** The text stored in the `sale_status` column; the two statuses are
      stored as different lower-case words. */
  function StatusText(s: Status): (t: string)
    ensures ParseStatus(t) == Some(s)
    ensures forall i :: 0 <= i < |t| ==> 'a' <= t[i] <= 'z'
  {
    match s
    case Open => "open"
    case Close => "close"
  }

  /** Reading the column back: "open" and "close" are the words the routes
      write and compare against, and no route stores any other. */
  function ParseStatus(t: string): (r: Option<Status>)
    ensures r.Some? ==> t == "open" || t == "close"
  {
    if t == "open" then Some(Open) else if t == "close" then Some(Close) else None
  }

  /** A product row.  Prices are integer cents (the route rounds them to two
      decimals); `availableStock` is the column the routes read and write. */
  datatype Product = Product(
    id: nat,
    name: string,
    price: int,
    supplier: string,
    category: string,
    description: string,
    availableStock: int)

  /** The shipping address a sale carries. */
  datatype Address = Address(
    zipCode: string,
    country: string,
    city: string,
    state: string,
    street: string,
    neighborhood: string)

  /** A sale row; `name` is a copy of the product name, not a reference. */
  datatype Sale = Sale(
    id: int,
    name: string,
    quantity: int,
    value: int,
    status: Status,
    address: Address)

  /** The store: both tables plus the next ids the store will hand out. */
  datatype Store = Store(
    products: map<string, Product>,
    sales: map<int, Sale>,
    nextProductId: nat,
    nextSaleId: nat)

  /** The `Sales` constructor: it takes no id and no status, so the store
      assigns the id and the status takes its column default. */
  function NewSale(id: int, name: string, quantity: int, value: int, address: Address): (s: Sale)
    ensures s.status == Open
    ensures s.id == id && s.name == name && s.quantity == quantity && s.value == value
    ensures s.address == address
  {
    Sale(id, name, quantity, value, Open, address)
  }

  /** A fresh database: empty tables, auto-increment counters at 1. */
  const Empty := Store(map[], map[], 1, 1)

  /** Product names are unique title-cased keys; product ids are distinct
      and below the counter. */
  predicate ProductsValid(products: map<string, Product>, nextId: nat)
  {
    && 1 <= nextId
    && (forall n :: n in products ==> products[n].name == n && Title(n) == n)
    && (forall n :: n in products ==> 1 <= products[n].id < nextId)
    && (forall n, m :: n in products && m in products && n != m ==>
          products[n].id != products[m].id)
  }

  /** Each sale sits under its own id, below the counter. */
  predicate SalesValid(sales: map<int, Sale>, nextId: nat)
  {
    && 1 <= nextId
    && (forall id :: id in sales ==> sales[id].id == id && 1 <= id < nextId)
  }

  /** What every store built by the routes satisfies. */
  predicate Valid(st: Store)
  {
    ProductsValid(st.products, st.nextProductId) && SalesValid(st.sales, st.nextSaleId)
  }

  /** What the routes' existence test sees.  They ask the database for the
      name cell of the row and test its length, so a row whose name is the
      empty string reads as absent. */
  predicate Registered(st: Store, name: string)
  {
    name in st.products && name != ""
  }

  /** Some sale, open or closed, carries `name`. */
  predicate Sold(st: Store, name: string)
  {
    exists id :: id in st.sales && st.sales[id].name == name
  }

  /** The ids of the sales whose status is "open". */
  function OpenIds(st: Store): set<int>
  {
    set id | id in st.sales && st.sales[id].status == Open
  }

  lemma EmptyValid()
    ensures Valid(Empty)
  {
  }
}

=== FILE: outcomes.dfy ===
/** How a route ends: with a value, or with one of the failures the routes
    raise.  The product routes catch their `ValueError`s as warnings (HTTP
    201); the sale routes report every failure as an error (HTTP 400). */
module Outcomes {

  datatype Option<+T> = None | Some(value: T)

  datatype Level = Warning | Error

  /** One constructor per message a route raises. */
  datatype Problem =
    | AlreadyRegistered              // "Product already registered"
    | DuplicateName                  // the database refuses a second row of the unique name
    | ProductMissing                 // "The product does not exist"
    | AlreadySold(name: string)      // "<name> has already been sold, it's not possible to delete it"
    | BadZipCode                     // "Incorrect zip code, expected format: nnnnn-nnn or nnnnn-nnnn"
    | InsufficientStock(available: int)  // "There are only <n> unit(s) available in stock"
    | StockUpdateFailed              // "Error updating stock"
    | SaleMissing(saleId: int)       // "The sale <id> does not exist"
    | SaleAlreadyClosed(saleId: int) // "The sale <id> is already closed"
    | SaleClosed(saleId: int)        // "The sale <id> is closed, it is not possible to delete"
    | NoOpenSales                    // "There are no open sales"

  datatype Result<+T> = Ok(value: T) | Fail(level: Level, problem: Problem)
}

=== FILE: products.dfy ===
/** The product routes: add a product, overwrite its stock, delete it, read
    it.  Each route is a pure function from the store to an outcome that, on
    success, carries the new store. */
module Products {
  import opened Text
  import opened Outcomes
  import opened Model

  /** The form of `/add_product`, already URL-decoded; the price in cents. */
  datatype ProductRequest = ProductRequest(
    name: string,
    price: int,
    supplier: string,
    category: string,
    description: string,
    availableStock: int)

  /** The body of a successful `/update_stock`. */
  datatype StockReport = StockReport(name: string, oldStock: int, newStock: int)

  /** `/add_product`: title-case the name, refuse it with a warning if the
      existence test finds it, otherwise insert one new row with the next
      product id.  A stored empty name escapes the test, and the insert of a
      second one then breaks the unique column and ends in an error. */
  function AddProduct(st: Store, req: ProductRequest): (r: Result<(Store, Product)>)
    ensures r.Fail? <==> Title(req.name) in st.products
    ensures Registered(st, Title(req.name)) ==> r == Fail(Warning, AlreadyRegistered)
    ensures Title(req.name) in st.products && !Registered(st, Title(req.name)) ==>
      r == Fail(Error, DuplicateName)
    ensures r.Ok? ==>
      var (st', p) := r.value;
      && p == Product(st.nextProductId, Title(req.name), req.price, req.supplier,
                      req.category, req.description, req.availableStock)
      && st'.products.Keys == st.products.Keys + {p.name}
      && |st'.products| == |st.products| + 1
      && st'.products[p.name] == p
      && (forall n :: n in st.products ==> st'.products[n] == st.products[n])
      && st'.sales == st.sales
      && st'.nextSaleId == st.nextSaleId
      && st'.nextProductId == st.nextProductId + 1
  {
    var name := Title(req.name);
    if Registered(st, name) then
      Fail(Warning, AlreadyRegistered)
    else if name in st.products then
      Fail(Error, DuplicateName)
    else
      var p := Product(st.nextProductId, name, req.price, req.supplier,
                       req.category, req.description, req.availableStock);
      Ok((st.(products := st.products[name := p], nextProductId := st.nextProductId + 1), p))
  }

  /** `/update_stock`: overwrite the stock of the title-cased name with
      `newStock`, whatever its sign, and report the stock it replaced; a
      name the existence test does not find is refused. */
  function UpdateStock(st: Store, rawName: string, newStock: int): (r: Result<(Store, StockReport)>)
    ensures r.Fail? <==> !Registered(st, Title(rawName))
    ensures r.Fail? ==> r.level == Warning && r.problem == ProductMissing
    ensures r.Ok? ==>
      var (st', report) := r.value;
      var name := Title(rawName);
      && report == StockReport(name, st.products[name].availableStock, newStock)
      && st'.products.Keys == st.products.Keys
      && st'.products[name] == st.products[name].(availableStock := newStock)
      && (forall n :: n in st.products && n != name ==> st'.products[n] == st.products[n])
      && st'.sales == st.sales
      && st'.nextProductId == st.nextProductId
      && st'.nextSaleId == st.nextSaleId
  {
    var name := Title(rawName);
    if !Registered(st, name) then
      Fail(Warning, ProductMissing)
    else
      var p := st.products[name];
      Ok((st.(products := st.products[name := p.(availableStock := newStock)]),
          StockReport(name, p.availableStock, newStock)))
  }

  /** `/delete_product`: refuse an unknown name, refuse a name that any sale
      (open or closed) carries, otherwise remove exactly that product. */
  function DeleteProduct(st: Store, rawName: string): (r: Result<(Store, string)>)
    ensures r.Ok? <==> Registered(st, Title(rawName)) && !Sold(st, Title(rawName))
    ensures !Registered(st, Title(rawName)) ==> r == Fail(Warning, ProductMissing)
    ensures Registered(st, Title(rawName)) && Sold(st, Title(rawName)) ==>
      r == Fail(Warning, AlreadySold(Title(rawName)))
    ensures r.Ok? ==>
      var (st', name) := r.value;
      && name == Title(rawName)
      && st'.products.Keys == st.products.Keys - {name}
      && |st'.products| == |st.products| - 1
      && (forall n :: n in st'.products ==> st'.products[n] == st.products[n])
      && st'.sales == st.sales
      && st'.nextProductId == st.nextProductId
      && st'.nextSaleId == st.nextSaleId
  {
    var name := Title(rawName);
    if !Registered(st, name) then
      Fail(Warning, ProductMissing)
    else if Sold(st, name) then
      Fail(Warning, AlreadySold(name))
    else
      Ok((st.(products := st.products - {name}), name))
  }

  /** `/get_product/<name>`: a read-only lookup.  Unlike the other routes it
      uses the name exactly as given, without title-casing it. */
  function GetProduct(st: Store, name: string): (r: Result<Product>)
    ensures r.Ok? <==> Registered(st, name)
    ensures r.Ok? ==> r.value == st.products[name]
    ensures r.Fail? ==> r.level == Warning && r.problem == ProductMissing
  {
    if !Registered(st, name) then Fail(Warning, ProductMissing) else Ok(st.products[name])
  }

  // ---------------------------------------------------------------- lemmas

  /** Reading back a product just added returns exactly the fields given
      (the name title-cased). */
  lemma AddThenGet(st: Store, req: ProductRequest)
    requires Title(req.name) !in st.products
    requires req.name != ""
    ensures AddProduct(st, req).Ok?
    ensures var st' := AddProduct(st, req).value.0;
      && GetProduct(st', Title(req.name)).Ok?
      && var p := GetProduct(st', Title(req.name)).value;
      && p.name == Title(req.name) && p.price == req.price && p.supplier == req.supplier
      && p.category == req.category && p.description == req.description
      && p.availableStock == req.availableStock
  {
  }

  /** A second `/add_product` of a name that title-cases to the same key is
      refused, and the first product is not replaced: with the warning for
      a non-empty name, with the database's error for the empty one. */
  lemma AddTwiceRefused(st: Store, req: ProductRequest, again: ProductRequest)
    requires AddProduct(st, req).Ok?
    requires Title(again.name) == Title(req.name)
    ensures AddProduct(AddProduct(st, req).value.0, again)
      == if req.name == "" then Fail(Error, DuplicateName) else Fail(Warning, AlreadyRegistered)
  {
  }

  /** A product stored under the empty name is invisible to the routes:
      reading it, updating its stock and deleting it all fail as if it did
      not exist. */
  lemma EmptyNameHidden(st: Store, newStock: int)
    requires "" in st.products
    ensures GetProduct(st, "") == Fail(Warning, ProductMissing)
    ensures UpdateStock(st, "", newStock) == Fail(Warning, ProductMissing)
    ensures DeleteProduct(st, "") == Fail(Warning, ProductMissing)
  {
  }

  /** `/get_product` does not title-case: in a store the routes built it
      finds only names that are their own title. */
  lemma GetProductFindsOnlyTitles(st: Store, name: string)
    requires Valid(st)
    requires GetProduct(st, name).Ok?
    ensures Title(name) == name
  {
  }

  /** So a product stored as "Iphone 13" is not found under "iphone 13". */
  lemma GetProductIsCaseSensitive(st: Store)
    requires Valid(st)
    requires "Iphone 13" in st.products
    ensures GetProduct(st, "Iphone 13").Ok?
    ensures GetProduct(st, "iphone 13") == Fail(Warning, ProductMissing)
  {
    TitlePointwise("iphone 13");
    assert Title("iphone 13") != "iphone 13" by {
      assert Title("iphone 13")[0] == 'I';
    }
    if GetProduct(st, "iphone 13").Ok? {
      GetProductFindsOnlyTitles(st, "iphone 13");
    }
  }
}

=== FILE: sales.dfy ===
/** The sale routes: record a sale (checking the Brazilian zip code and the
    stock, then debiting the stock through the product route), close it,
    delete it while open, and list the open sales. */
module Sales {
  import opened Text
  import opened Outcomes
  import opened Model
  import opened Products

  /** The form of `/add_sale`, already URL-decoded. */
  datatype SaleRequest = SaleRequest(name: string, quantity: int, address: Address)

  /** One entry of `/get_sales`: the open sale and, when the lookup of its
      product name succeeds, the product's current row. */
  datatype SaleView = SaleView(sale: Sale, product: Option<Product>)

  /** `.strip().title()`, applied to the name and every address field except
      the zip code. */
  function Clean(s: string): string
  {
    Title(Strip(s))
  }

  function CleanAddress(a: Address): Address
  {
    Address(a.zipCode, Clean(a.country), Clean(a.city), Clean(a.state),
            Clean(a.street), Clean(a.neighborhood))
  }

  predicate IsBrazil(country: string)
  {
    country == "Brazil" || country == "Brasil"
  }

  /** The shape `/add_sale` demands of a Brazilian zip code: 9 or 10
      characters that split on "-" into exactly two pieces. */
  predicate ZipShapeOk(zip: string)
  {
    (|zip| == 9 || |zip| == 10) && |Split(zip, '-')| == 2
  }

  /** The zip check passes for any country other than Brazil. */
  predicate ZipAccepted(zip: string, country: string)
  {
    IsBrazil(country) ==> ZipShapeOk(zip)
  }

  /** The zip shape in plain words: 9 or 10 characters with exactly one
      hyphen.  The digits themselves are never checked. */
  lemma ZipShapeByHyphens(zip: string)
    ensures ZipShapeOk(zip) <==> (|zip| == 9 || |zip| == 10) && Count(zip, '-') == 1
  {
    SplitCount(zip, '-');
  }

  /** `st'` is `st` with `quantity` units of `name` debited and the open
      sale `s` of them, worth `price * quantity`, added under the next sale
      id; nothing else changes. */
  predicate SaleRecorded(st: Store, name: string, quantity: int, addr: Address, st': Store, s: Sale)
    requires name in st.products
  {
    var before := st.products[name];
    && s == Sale(st.nextSaleId, name, quantity, before.price * quantity, Open, addr)
    && st'.products == st.products[name := before.(availableStock := before.availableStock - quantity)]
    && st'.sales == st.sales[s.id := s]
    && st'.nextSaleId == st.nextSaleId + 1
    && st'.nextProductId == st.nextProductId
  }

  /** How the three checks of `/add_sale` decide the outcome `r` for the
      cleaned request `c`: it succeeds exactly when all pass, and otherwise
      fails with the error of the first check that does not. */
  predicate ChecksDecide<T>(st: Store, c: SaleRequest, r: Result<T>)
  {
    var zipOk := ZipAccepted(c.address.zipCode, c.address.country);
    && (r.Ok? <==>
          && zipOk
          && Registered(st, c.name)
          && c.quantity <= st.products[c.name].availableStock)
    && (!zipOk ==> r == Fail(Error, BadZipCode))
    && (zipOk && !Registered(st, c.name) ==> r == Fail(Error, ProductMissing))
    && (zipOk && Registered(st, c.name) && c.quantity > st.products[c.name].availableStock ==>
          r == Fail(Error, InsufficientStock(st.products[c.name].availableStock)))
  }

  /** The request as `/add_sale` sees it after `.strip().title()`. */
  function CleanRequest(req: SaleRequest): (c: SaleRequest)
    ensures Title(c.name) == c.name
  {
    TitleIdempotent(Strip(req.name));
    SaleRequest(Clean(req.name), req.quantity, CleanAddress(req.address))
  }

  /** `/add_sale`.  The inputs are cleaned first; then the checks run in the
      order zip code, product existence, stock sufficiency; only then is the
      stock debited through `UpdateStock` and the sale inserted, open, under
      the next sale id. */
  function AddSale(st: Store, req: SaleRequest): (r: Result<(Store, Sale)>)
    ensures ChecksDecide(st, CleanRequest(req), r)
    ensures r.Ok? ==>
      var c := CleanRequest(req);
      SaleRecorded(st, c.name, c.quantity, c.address, r.value.0, r.value.1)
  {
    var c := CleanRequest(req);
    CheckedSale(st, c)
  }

  /** The checks of `/add_sale` on a cleaned request, in the order the route
      runs them. */
  function CheckedSale(st: Store, c: SaleRequest): (r: Result<(Store, Sale)>)
    requires Title(c.name) == c.name
    ensures ChecksDecide(st, c, r)
    ensures r.Ok? ==> SaleRecorded(st, c.name, c.quantity, c.address, r.value.0, r.value.1)
  {
    if !ZipAccepted(c.address.zipCode, c.address.country) then
      Fail(Error, BadZipCode)
    else if !Registered(st, c.name) then
      Fail(Error, ProductMissing)
    else
      var available := st.products[c.name].availableStock;
      if c.quantity > available then
        Fail(Error, InsufficientStock(available))
      else
        // The stock route title-cases the name once more; that finds the
        // same product because the name is already title-cased.
        RecordSale(st, c.name, c.quantity, c.address)
  }

  /** The tail of `/add_sale` once every check has passed: debit the stock
      through `UpdateStock`, read the price, insert the open sale. */
  function RecordSale(st: Store, name: string, quantity: int, addr: Address): (r: Result<(Store, Sale)>)
    requires Registered(st, name) && Title(name) == name
    ensures r.Ok?
    ensures SaleRecorded(st, name, quantity, addr, r.value.0, r.value.1)
  {
    match UpdateStock(st, name, st.products[name].availableStock - quantity)
    case Fail(_, _) => Fail(Error, StockUpdateFailed)
    case Ok((debited, _)) =>
      var price := debited.products[name].price;
      var s := NewSale(debited.nextSaleId, name, quantity, price * quantity, addr);
      Ok((debited.(sales := debited.sales[s.id := s], nextSaleId := debited.nextSaleId + 1), s))
  }

  /** `/close_sale`: the one-way step from "open" to "close". */
  function CloseSale(st: Store, id: int): (r: Result<Store>)
    ensures r.Ok? <==> id in st.sales && st.sales[id].status == Open
    ensures id !in st.sales ==> r == Fail(Error, SaleMissing(id))
    ensures id in st.sales && st.sales[id].status == Close ==> r == Fail(Error, SaleAlreadyClosed(id))
    ensures r.Ok? ==>
      && r.value.sales.Keys == st.sales.Keys
      && r.value.sales[id] == st.sales[id].(status := Close)
      && (forall other :: other in st.sales && other != id ==> r.value.sales[other] == st.sales[other])
      && r.value.products == st.products
      && r.value.nextProductId == st.nextProductId
      && r.value.nextSaleId == st.nextSaleId
  {
    if id !in st.sales then
      Fail(Error, SaleMissing(id))
    else
      match st.sales[id].status
      case Close => Fail(Error, SaleAlreadyClosed(id))
      case Open => Ok(st.(sales := st.sales[id := st.sales[id].(status := Close)]))
  }

  /** `/delete_sale`: remove an open sale.  The stock it debited is not
      given back. */
  function DeleteSale(st: Store, id: int): (r: Result<Store>)
    ensures r.Ok? <==> id in st.sales && st.sales[id].status == Open
    ensures id !in st.sales ==> r == Fail(Error, SaleMissing(id))
    ensures id in st.sales && st.sales[id].status == Close ==> r == Fail(Error, SaleClosed(id))
    ensures r.Ok? ==>
      && r.value.sales.Keys == st.sales.Keys - {id}
      && |r.value.sales| == |st.sales| - 1
      && (forall other :: other in r.value.sales ==> r.value.sales[other] == st.sales[other])
      && r.value.products == st.products
      && r.value.nextProductId == st.nextProductId
      && r.value.nextSaleId == st.nextSaleId
  {
    if id !in st.sales then
      Fail(Error, SaleMissing(id))
    else
      match st.sales[id].status
      case Close => Fail(Error, SaleClosed(id))
      case Open => Ok(st.(sales := st.sales - {id}))
  }

  /** The product row the join of `/get_sales` finds for a sale name. */
  function ProductOf(st: Store, name: string): (r: Option<Product>)
    ensures r.Some? <==> GetProduct(st, name).Ok?
    ensures r.Some? ==> r.value == GetProduct(st, name).value
  {
    if Registered(st, name) then Some(st.products[name]) else None
  }

  /** `/get_sales`: every open sale, in id order, each joined with its
      product's current row; a failure when no sale is open. */
  method GetSales(st: Store) returns (r: Result<seq<SaleView>>)
    requires Valid(st)
    ensures r.Fail? <==> OpenIds(st) == {}
    ensures r.Fail? ==> r.level == Error && r.problem == NoOpenSales
    ensures r.Ok? ==> forall k :: 0 <= k < |r.value| ==>
      var v := r.value[k];
      && v.sale.id in st.sales
      && st.sales[v.sale.id] == v.sale
      && v.sale.status == Open
      && v.product == ProductOf(st, v.sale.name)
    ensures r.Ok? ==> forall id :: id in OpenIds(st) ==>
      exists k :: 0 <= k < |r.value| && r.value[k].sale.id == id
    ensures r.Ok? ==> forall a, b :: 0 <= a < b < |r.value| ==>
      r.value[a].sale.id < r.value[b].sale.id
  {
    var views: seq<SaleView> := [];
    var id := 1;
    while id < st.nextSaleId
      invariant 1 <= id <= st.nextSaleId
      invariant forall k :: 0 <= k < |views| ==>
        var v := views[k];
        && v.sale.id in st.sales
        && st.sales[v.sale.id] == v.sale
        && v.sale.status == Open
        && v.product == ProductOf(st, v.sale.name)
        && v.sale.id < id
      invariant forall j :: j in OpenIds(st) && j < id ==>
        exists k :: 0 <= k < |views| && views[k].sale.id == j
      invariant forall a, b :: 0 <= a < b < |views| ==> views[a].sale.id < views[b].sale.id
      decreases st.nextSaleId - id
    {
      ghost var before := views;
      if id in st.sales && st.sales[id].status == Open {
        var s := st.sales[id];
        views := views + [SaleView(s, ProductOf(st, s.name))];
        assert views[|views| - 1].sale.id == id;
      }
      forall j | j in OpenIds(st) && j < id + 1
        ensures exists k :: 0 <= k < |views| && views[k].sale.id == j
      {
        if j < id {
          var k :| 0 <= k < |before| && before[k].sale.id == j;
          assert views[k] == before[k];
        } else {
          assert views[|views| - 1].sale.id == j;
        }
      }
      id := id + 1;
    }
    if |views| == 0 {
      r := Fail(Error, NoOpenSales);
    } else {
      assert views[0].sale.id in OpenIds(st);
      r := Ok(views);
    }
  }
}

=== FILE: scenarios.dfy ===
/** Proved scenarios on small stores: a phone catalogue of one product and
    sales to Brazilian addresses. */
module Scenarios {
  import opened Text
  import opened Outcomes
  import opened Model
  import opened Products
  import opened Sales

  /** Ten phones at 8300.00 each, under the product name `name`. */
  function Phone(name: string): ProductRequest
  {
    ProductRequest(name, 830000, "Apple", "Cell phone", "One of the most popular mobile devices", 10)
  }

  const SampleAddress := Address("01025-020", "Brazil", "Sao Paulo", "SP", "Avenida do Estado", "")

  /** "Iphone 13" is already stripped and title-cased. */
  lemma IphoneIsClean()
    ensures Clean("Iphone 13") == "Iphone 13"
  {
    var s := "Iphone 13";
    StripKeeps(s);
    forall i | 0 <= i < |s|
      ensures TitleChar(s, i) == s[i]
    {
    }
    TitleKeeps(s);
    assert Strip(s) == s && Title(s) == s;
  }

  /** "Brazil" is already stripped and title-cased. */
  lemma BrazilIsClean()
    ensures Clean("Brazil") == "Brazil"
  {
    var s := "Brazil";
    StripKeeps(s);
    forall i | 0 <= i < |s|
      ensures TitleChar(s, i) == s[i]
    {
    }
    TitleKeeps(s);
    assert Strip(s) == s && Title(s) == s;
  }

  /** A zip made of two hyphen-free parts joined by one hyphen, 9 or 10
      characters long, has the Brazilian shape. */
  lemma ZipFromParts(zip: string, a: string, b: string)
    requires zip == a + "-" + b
    requires '-' !in a && '-' !in b
    requires |a| + |b| == 8 || |a| + |b| == 9
    ensures ZipShapeOk(zip)
  {
    CountAppend(a + "-", b, '-');
    CountAppend(a, "-", '-');
    ZipShapeByHyphens(zip);
  }

  /** The sample address is Brazilian and its zip "01025-020" has the
      accepted shape. */
  lemma SampleAddressAccepted()
    ensures IsBrazil(Clean(SampleAddress.country))
    ensures ZipShapeOk(SampleAddress.zipCode)
  {
    BrazilIsClean();
    ZipFromParts(SampleAddress.zipCode, "01025", "020");
  }

  /** Adding ten phones under a clean name to a fresh database and selling
      three of them to a Brazilian address whose zip has the accepted shape
      records an open sale worth 24900.00 under that name and leaves seven
      in stock.  The name must not be empty: a product stored under the
      empty name is invisible to the existence test of `/add_sale`. */
  lemma SellThreePhones(name: string, addr: Address)
    requires Clean(name) == name && name != ""
    requires IsBrazil(Clean(addr.country)) && ZipShapeOk(addr.zipCode)
    ensures AddProduct(Empty, Phone(name)).Ok?
    ensures var st := AddProduct(Empty, Phone(name)).value.0;
      var req := SaleRequest(name, 3, addr);
      && AddSale(st, req).Ok?
      && var (st', s) := AddSale(st, req).value;
      && s.value == 2490000
      && s.status == Open
      && s.name == name
      && st'.products[name].availableStock == 7
  {
    TitleIdempotent(Strip(name));
    var st := AddProduct(Empty, Phone(name)).value.0;
    assert st.products[name].availableStock == 10;
  }

  /** A Brazilian zip code without a hyphen is refused with the zip-code
      error, whatever its length and whatever the store holds. */
  lemma ZipWithoutHyphenRefused(st: Store, req: SaleRequest)
    requires IsBrazil(Clean(req.address.country))
    requires '-' !in req.address.zipCode
    ensures AddSale(st, req) == Fail(Error, BadZipCode)
  {
    ZipShapeByHyphens(req.address.zipCode);
  }

  /** A blank name (one that strips to nothing) passes the zip check and
      is then refused as a missing product, even when a product is stored
      under the empty name. */
  lemma BlankNameRefused(st: Store, req: SaleRequest)
    requires ZipAccepted(req.address.zipCode, Clean(req.address.country))
    requires Strip(req.name) == ""
    ensures AddSale(st, req) == Fail(Error, ProductMissing)
  {
    assert Clean(req.name) == "";
  }
}

=== FILE: text.dfy ===
/** ASCII models of the three Python string operations the routes apply to
    their inputs: `str.strip()`, `str.title()` and `str.split(sep)`. */
module Text {

  /** Python's `str.isspace` restricted to ASCII: space, \t \n \v \f \r and
      the four separators \x1c-\x1f. */
  predicate IsSpace(c: char)
  {
    c == ' ' || (9 <= c as int <= 13) || (28 <= c as int <= 31)
  }

  predicate IsUpper(c: char) { 'A' <= c <= 'Z' }

  predicate IsLower(c: char) { 'a' <= c <= 'z' }

  /** A cased character in the sense of `str.title`: an ASCII letter. */
  predicate IsCased(c: char) { IsUpper(c) || IsLower(c) }

  function ToUpper(c: char): (u: char)
    ensures IsCased(c) ==> IsUpper(u)
    ensures !IsCased(c) ==> u == c
    ensures IsUpper(c) ==> u == c
  {
    if IsLower(c) then (c as int - 32) as char else c
  }

  function ToLower(c: char): (l: char)
    ensures IsCased(c) ==> IsLower(l)
    ensures !IsCased(c) ==> l == c
    ensures IsLower(c) ==> l == c
  {
    if IsUpper(c) then (c as int + 32) as char else c
  }

  // ---------------------------------------------------------------- strip

  /** All characters of `s` are whitespace. */
  predicate AllSpace(s: string)
  {
    forall i :: 0 <= i < |s| ==> IsSpace(s[i])
  }

  function TrimStart(s: string): (t: string)
    ensures |t| <= |s| && t == s[|s| - |t|..]
    ensures AllSpace(s[..|s| - |t|])
    ensures t == [] || !IsSpace(t[0])
    decreases |s|
  {
    if |s| > 0 && IsSpace(s[0]) then
      var t := TrimStart(s[1..]);
      SpaceThenSuffix(s, t);
      t
    else s
  }

  /** A suffix of `s[1..]` preceded only by whitespace there is a suffix of
      `s` preceded only by whitespace, when `s[0]` is whitespace too. */
  lemma SpaceThenSuffix(s: string, t: string)
    requires |s| > 0 && IsSpace(s[0])
    requires |t| <= |s| - 1 && t == s[1..][|s| - 1 - |t|..]
    requires AllSpace(s[1..][..|s| - 1 - |t|])
    ensures t == s[|s| - |t|..] && AllSpace(s[..|s| - |t|])
  {
    var k := |s| - |t|;
    assert s[1..][k - 1..] == s[k..];
    forall i | 0 < i < k
      ensures IsSpace(s[i])
    {
      assert s[i] == s[1..][..k - 1][i - 1];
    }
  }

  function TrimEnd(s: string): (t: string)
    ensures |t| <= |s| && t == s[..|t|]
    ensures AllSpace(s[|t|..])
    ensures t == [] || !IsSpace(t[|t| - 1])
    decreases |s|
  {
    if |s| > 0 && IsSpace(s[|s| - 1]) then
      var t := TrimEnd(s[..|s| - 1]);
      PrefixThenSpace(s, t);
      t
    else s
  }

  /** The mirror image of `SpaceThenSuffix` at the end of `s`. */
  lemma PrefixThenSpace(s: string, t: string)
    requires |s| > 0 && IsSpace(s[|s| - 1])
    requires |t| <= |s| - 1 && t == s[..|s| - 1][..|t|]
    requires AllSpace(s[..|s| - 1][|t|..])
    ensures t == s[..|t|] && AllSpace(s[|t|..])
  {
    var k := |t|;
    assert s[..|s| - 1][..k] == s[..k];
    forall i | k <= i < |s| - 1
      ensures IsSpace(s[i])
    {
      assert s[i] == s[..|s| - 1][k..][i - k];
    }
  }

  /** `t` is the infix of `s` starting at offset `a`, and everything of `s`
      outside it is whitespace. */
  predicate StripsTo(s: string, t: string, a: int)
  {
    && 0 <= a
    && a + |t| <= |s|
    && t == s[a..a + |t|]
    && AllSpace(s[..a])
    && AllSpace(s[a + |t|..])
  }

  /** Python `s.strip()`: what is left of `s` after removing the whitespace
      at both ends. */
  function Strip(s: string): (t: string)
    ensures StripsTo(s, t, |s| - |TrimStart(s)|)
    ensures t == [] || (!IsSpace(t[0]) && !IsSpace(t[|t| - 1]))
  {
    var a := TrimStart(s);
    var t := TrimEnd(a);
    InfixOfSuffix(s, a, t);
    t
  }

  /** Dropping whitespace from the end of a suffix `a` of `s` that follows
      only whitespace leaves an infix of `s` with only whitespace around it. */
  lemma InfixOfSuffix(s: string, a: string, t: string)
    requires |a| <= |s| && a == s[|s| - |a|..] && AllSpace(s[..|s| - |a|])
    requires |t| <= |a| && t == a[..|t|] && AllSpace(a[|t|..])
    ensures StripsTo(s, t, |s| - |a|)
  {
    var off := |s| - |a|;
    assert s[off + |t|..] == a[|t|..];
    assert s[off..off + |t|] == t;
  }

  /** A string with no whitespace at either end is its own strip. */
  lemma StripKeeps(s: string)
    requires s == [] || (!IsSpace(s[0]) && !IsSpace(s[|s| - 1]))
    ensures Strip(s) == s
  {
    assert TrimStart(s) == s;
  }

  /** Stripping twice strips nothing more. */
  lemma StripIdempotent(s: string)
    ensures Strip(Strip(s)) == Strip(s)
  {
  }

  // ---------------------------------------------------------------- title

  /** `str.title` scanning `s` when the character before `s[0]` was cased
      (`prevCased`) or not. */
  function TitleFrom(s: string, prevCased: bool): (t: string)
    ensures |t| == |s|
    decreases |s|
  {
    if s == [] then []
    else [if prevCased then ToLower(s[0]) else ToUpper(s[0])] + TitleFrom(s[1..], IsCased(s[0]))
  }

  /** Python `s.title()` on ASCII: a letter that follows a letter is
      lower-cased, every other letter is upper-cased, non-letters stay. */
  function Title(s: string): (t: string)
    ensures |t| == |s|
  {
    TitleFrom(s, false)
  }

  /** Reference definition of character `i` of the title-cased string. */
  function TitleChar(s: string, i: nat): char
    requires i < |s|
  {
    if i > 0 && IsCased(s[i - 1]) then ToLower(s[i]) else ToUpper(s[i])
  }

  lemma {:induction false} TitleFromPointwise(s: string, prevCased: bool, i: nat)
    requires 0 < i < |s|
    ensures TitleFrom(s, prevCased)[i] == TitleChar(s, i)
    decreases i
  {
    var rest := s[1..];
    if i == 1 {
      assert TitleFrom(s, prevCased)[1] == TitleFrom(rest, IsCased(s[0]))[0];
    } else {
      TitleFromPointwise(rest, IsCased(s[0]), i - 1);
      assert rest[i - 2] == s[i - 1];
    }
  }

  /** `Title` agrees with the character-wise reference definition. */
  lemma TitlePointwise(s: string)
    ensures forall i: nat :: i < |s| ==> Title(s)[i] == TitleChar(s, i)
  {
    forall i: nat | i < |s|
      ensures Title(s)[i] == TitleChar(s, i)
    {
      if i > 0 {
        TitleFromPointwise(s, false, i);
      }
    }
  }

  /** A string each of whose characters is already its title-cased form
      is its own title. */
  lemma TitleKeeps(s: string)
    requires forall i :: 0 <= i < |s| ==> TitleChar(s, i) == s[i]
    ensures Title(s) == s
  {
    TitlePointwise(s);
  }

  /** Title-casing keeps every character's cased-ness. */
  lemma TitleKeepsCased(s: string)
    ensures forall i :: 0 <= i < |s| ==> (IsCased(Title(s)[i]) <==> IsCased(s[i]))
  {
    TitlePointwise(s);
  }

  /** Title-casing an already title-cased string changes nothing, so the
      repeated `.title()` in the stock update that a sale triggers looks up
      the same product as the sale itself. */
  lemma TitleIdempotent(s: string)
    ensures Title(Title(s)) == Title(s)
  {
    var t := Title(s);
    TitlePointwise(s);
    TitlePointwise(t);
    TitleKeepsCased(s);
    forall i: nat | i < |t|
      ensures Title(t)[i] == t[i]
    {
      assert Title(t)[i] == TitleChar(t, i);
    }
  }

  // ---------------------------------------------------------------- split

  /** Number of occurrences of `c` in `s`. */
  function Count(s: string, c: char): (n: nat)
    ensures n <= |s|
    ensures n == 0 <==> c !in s
  {
    if s == [] then 0 else (if s[0] == c then 1 else 0) + Count(s[1..], c)
  }

  lemma {:induction false} CountAppend(a: string, b: string, c: char)
    ensures Count(a + b, c) == Count(a, c) + Count(b, c)
    decreases |a|
  {
    if a == [] {
      assert a + b == b;
    } else {
      CountAppend(a[1..], b, c);
      assert (a + b)[1..] == a[1..] + b;
    }
  }

  /** Position of the first `c` in `s`. */
  function IndexOf(s: string, c: char): (i: nat)
    requires c in s
    ensures i < |s| && s[i] == c && c !in s[..i]
  {
    if s[0] == c then 0 else 1 + IndexOf(s[1..], c)
  }

  /** Python `s.split(sep)` for a one-character separator: the pieces between
      consecutive separators, always at least one piece. */
  function Split(s: string, sep: char): (parts: seq<string>)
    ensures |parts| >= 1
    ensures forall k :: 0 <= k < |parts| ==> sep !in parts[k]
    decreases |s|
  {
    if sep !in s then [s]
    else
      var i := IndexOf(s, sep);
      [s[..i]] + Split(s[i + 1..], sep)
  }

  /** Python `sep.join(parts)`. */
  function Join(parts: seq<string>, sep: char): string
    requires |parts| >= 1
  {
    if |parts| == 1 then parts[0] else parts[0] + [sep] + Join(parts[1..], sep)
  }

  /** `split` yields one more piece than there are separators. */
  lemma {:induction false} SplitCount(s: string, sep: char)
    ensures |Split(s, sep)| == Count(s, sep) + 1
    decreases |s|
  {
    if sep in s {
      var i := IndexOf(s, sep);
      SplitCount(s[i + 1..], sep);
      assert s == s[..i] + [sep] + s[i + 1..];
      CountAppend(s[..i] + [sep], s[i + 1..], sep);
      CountAppend(s[..i], [sep], sep);
    }
  }

  /** Joining the pieces with the separator gives back the original string. */
  lemma {:induction false} SplitJoin(s: string, sep: char)
    ensures Join(Split(s, sep), sep) == s
    decreases |s|
  {
    if sep in s {
      var i := IndexOf(s, sep);
      var rest := Split(s[i + 1..], sep);
      SplitJoin(s[i + 1..], sep);
      var parts := [s[..i]] + rest;
      assert Split(s, sep) == parts;
      assert parts[0] == s[..i] && parts[1..] == rest;
      assert Join(parts, sep) == s[..i] + [sep] + Join(rest, sep);
      assert s == s[..i] + [sep] + s[i + 1..];
    }
  }
}
